=== FILE: README.md ===
# nc_py_api application-side core, modelled in Dafny

This project models two small pieces of pure logic from `nc_py_api`, the
Python client for Nextcloud, and proves properties of them.

* **Files-app menu actions** (`nc_py_api/ex_app/ui/files.py`). When a user runs
  an external application's entry in the Files drop-down menu, Nextcloud sends a
  `UiActionFileInfo` record. `to_fs_node` turns it into an `FsNode`:
  it builds the user path and the `files/<userId>/…` full path, spells the
  permission bitmask as the WebDAV letter string (`S R G D NV/NVW CK`), and
  normalises the size, favorite and id fields. `register` fills the menu-entry
  options with their defaults. `unregister` swallows a "not found" reply unless
  `not_fail` is false.
* **The application client** (`NextcloudApp` in `nc_py_api/nextcloud.py`).
  The `user` setter is a state transition that resets Talk's per-user cache and
  refreshes the server information. `log`, `scope_allowed` and `theme` are
  decisions taken from the capability document. `request_sign_check` turns a
  signature `ValueError` into `false`.

Modules, one per concern:

| file | module | contents |
|---|---|---|
| `results.dfy` | `Results` | `Option`, `Result` |
| `json.dfy` | `Json` | JSON values; Python's int view of a value (`bool` is an `int`) |
| `pystr.dfy` | `PyStr` | `posixpath.join`, `rstrip("/")`, `lstrip("/")`, ASCII `lower()` |
| `ocs.dfy` | `Ocs` | the request primitive: requests sent, replies, raised errors |
| `capabilities.dfy` | `Capabilities` | the capability document, `check_capabilities`, `require_capabilities` |
| `files_actions.dfy` | `FilesActions` | `UiActionFileInfo`, `FsNode`, `to_fs_node`, `register`, `unregister` |
| `nextcloud_app.dfy` | `NextcloudApp` | app state, `user` setter, `log`, `scope_allowed`, `theme`, `request_sign_check` |

Modelling choices:

* The network is not modelled. Each operation that calls `ocs(...)` takes the
  platform's reply as a parameter (`OcsReply`). It returns a `Run`: the list of
  requests it sent and how it ended (a value, or the exception it raised).
* The signature check is a function parameter `R -> SignOutcome`. It returns
  normally, raises `ValueError`, or raises something else.
* `update_server_info` takes the fetched server information, or the fetch
  failure, as a parameter. A success replaces the capability document and
  version as a whole. A failure leaves them unchanged.
* Python's `x & FLAG` for a single-bit flag is `(x / FLAG) % 2 == 1`. Python's
  `&` works on an infinite two's-complement representation. Dafny's `/` by a
  positive divisor rounds down. So this matches for negative masks too.
* A failure reply carries a status that is neither 404 nor 2xx
  (`FailureStatus`). The session reports a 404 as the distinct "not found"
  reply, and a 2xx status is a success.
* The permission string has an independent reader, `ParsePermissionLetters`.
  The two are proved to be inverses on the flags a string can show.

Two points where the code's behaviour is easy to misread:

* `check_capabilities` also accepts dotted, nested names. The core only ever
  asks for the top-level name `app_ecosystem_v2`, and only top-level names
  are modelled.
* The `user` setter assigns the user and resets Talk's cache before it calls
  `update_server_info`. So a failed refresh raises with the new user in place
  (`AssignUser` states this).

## Model

| member | source | states |
|---|---|---|
| PyStr.RStripSlash | nc_py_api/ex_app/ui/files.py:50 | `rstrip("/")` yields the prefix of the input that does not end in '/', with only slashes removed after it |
| PyStr.LStripSlash | nc_py_api/ex_app/ui/files.py:54 | `lstrip("/")` yields the suffix of the input that does not start with '/', with only slashes removed before it |
| PyStr.Join | nc_py_api/ex_app/ui/files.py:50 | `os.path.join(a, b)` is `b` when `b` starts with '/', and otherwise `a`, then a '/' unless `a` is empty or already ends in one, then `b` |
| PyStr.Lower | nc_py_api/ex_app/ui/files.py:51 | `lower()` keeps the length, maps each ASCII capital to its small letter and leaves every other character as it is |
| PyStr.LowerEqualsIff | nc_py_api/ex_app/ui/files.py:51 | comparing `s.lower()` with a lower-case word holds iff `s` spells that word letter by letter in either case |
| FilesActions.IsDirectoryIff | nc_py_api/ex_app/ui/files.py:51 | a node is a directory iff `fileType` spells "dir" in any letter case |
| FilesActions.UserPath | nc_py_api/ex_app/ui/files.py:50-53 | a directory's user path ends with exactly one '/'; a file's never ends with '/'; apart from that slash it is the joined path with its trailing slashes removed |
| FilesActions.UserPathOfPlainName | nc_py_api/ex_app/ui/files.py:50-53 | for a plain name, the user path is directory, a separator if needed, the name, and '/' for a directory |
| FilesActions.FullPath | nc_py_api/ex_app/ui/files.py:54 | the full path is the user's root `files/<userId>` plus one '/' unless already present, then the user path without its leading slashes |
| FilesActions.FullPathUnderUserHome | nc_py_api/ex_app/ui/files.py:54 | for a non-empty user id not ending in '/', the full path is `files/<userId>/` followed by the user path with leading slashes removed |
| FilesActions.FullPathTrailingSlash | nc_py_api/ex_app/ui/files.py:50-54 | the full path ends in '/' iff the node is a directory or its user path is empty |
| PyStr.SlashAfterRoot | nc_py_api/ex_app/ui/files.py:54 | a root ending in '/' followed by a path with its leading slashes stripped ends in '/' iff the path was empty or ended in '/' |
| FilesActions.PermissionLettersShape | nc_py_api/ex_app/ui/files.py:56-66 | the letters start with S iff shared; W appears iff an updatable file; K appears iff a directory allowing creation; empty iff no showable flag is set |
| FilesActions.PermissionLettersRoundTrip | nc_py_api/ex_app/ui/files.py:56-66 | reading the permission letters back gives exactly the flags they show: S, R, G, D, NV (directory) or NVW (file), CK (directory only), in that order |
| FilesActions.ParsePermissionLettersSound | nc_py_api/ex_app/ui/files.py:56-66 | every string the reader accepts is the letter string of the flags it reads, so the letters occur only in the fixed order |
| FilesActions.FlagsOf | nc_py_api/ex_app/ui/files.py:56-65 | the node is shared iff `shareOwnerId` is present and non-empty; READ, UPDATE, CREATE, DELETE and SHARE are bits 0 to 4 of the `permissions` mask |
| FilesActions.PermissionString | nc_py_api/ex_app/ui/files.py:56-66 | the record's permission string reads back to exactly the record's flags that a node of its kind can show |
| FilesActions.PermissionStringMeaning | nc_py_api/ex_app/ui/files.py:56-66 | S leads iff `shareOwnerId` is present and non-empty; W iff a file with the UPDATE bit; K iff a directory with the CREATE bit |
| FilesActions.EmptyMaskNoOwner | nc_py_api/ex_app/ui/files.py:56-66 | a zero mask with no (or an empty) share owner id gives the empty permission string |
| FilesActions.FavoriteIff | nc_py_api/ex_app/ui/files.py:73 | the favorite marker is set iff the field spells "true" in any letter case |
| FilesActions.ToFsNode | nc_py_api/ex_app/ui/files.py:67-77 | the node carries the full path and the permission letters of the record's flags; content length is 0 for directories and the size for files; favorite iff the field spells "true" in any case; both id fields equal `fileId`; etag, size and timestamp pass through |
| FilesActions.MenuParamsOf | nc_py_api/ex_app/ui/files.py:100-111 | missing options default to mime "file", permissions 31, order 0, icon "" and icon class "icon-app-ecosystem-v2"; given options, name, display name and callback URL pass through unchanged |
| FilesActions.MenuDefaultsSettle | nc_py_api/ex_app/ui/files.py:104-108 | passing the resolved options back explicitly changes nothing, and passing the defaults explicitly equals passing none |
| FilesActions.DefaultPermissionsGrantAll | nc_py_api/ex_app/ui/files.py:105 | the default mask 31 has all five permission flags set (READ=1, UPDATE=2, CREATE=4, DELETE=8, SHARE=16) |
| FilesActions.DefaultPermissionsLowBits | nc_py_api/ex_app/ui/files.py:105 | the default mask 31 has each of the five lowest bits set, so it grants any five distinct single-bit flags below 32 |
| FilesActions.MenuParamsJsonRoundTrip | nc_py_api/ex_app/ui/files.py:100-111 | the posted body carries every menu parameter under its own key and reads back to the same parameters |
| FilesActions.Register | nc_py_api/ex_app/ui/files.py:97-112 | without the ecosystem capability nothing is sent and the call raises naming it; otherwise exactly one POST of the defaulted parameters goes to `<ae_url>/files/actions/menu` and the call ends as that request does: normal return on data, "not found" or the failure status raised otherwise |
| FilesActions.Unregister | nc_py_api/ex_app/ui/files.py:114-122 | without the ecosystem capability nothing is sent; otherwise one DELETE is sent and a "not found" reply completes normally iff `not_fail`, being re-raised otherwise; other failures propagate |
| FilesActions.UnregisterDefaultSwallowsNotFound | nc_py_api/ex_app/ui/files.py:114-122 | with `not_fail` left at its default `True`, a "not found" reply completes normally whenever the ecosystem capability is present, and the call still fails without it |
| FilesActions.UnregisterNotFailPolicy | nc_py_api/ex_app/ui/files.py:118-122 | `not_fail` changes nothing for replies other than "not found", and with it set the call never raises "not found" |
| Capabilities.Missing | nc_py_api/nextcloud.py:67-72 | the result holds exactly the requested names absent from the document; no more names than requested; empty for an empty request |
| Capabilities.Require | nc_py_api/ex_app/ui/files.py:99 | succeeds iff every requested name is present; otherwise raises one error that names exactly the missing ones |
| Capabilities.EcosystemCheck | nc_py_api/nextcloud.py:151-152 | the ecosystem check reports nothing missing iff `app_ecosystem_v2` is a key of the document |
| NextcloudApp.SetUser | nc_py_api/nextcloud.py:180-186 | assigning the current user changes nothing and asks for no refresh; another user is set, Talk's `config_sha` becomes "" and `modified_since` 0, exactly one refresh is asked for, and nothing else changes |
| NextcloudApp.SetUserIdempotent | nc_py_api/nextcloud.py:182 | assigning the same user a second time is a no-op without refresh |
| NextcloudApp.UpdateServerInfo | nc_py_api/nextcloud.py:74-79 | a fetched document replaces the old one whole; a failed fetch raises and leaves it in place |
| NextcloudApp.AssignUser | nc_py_api/nextcloud.py:180-186 | the user is always the assigned one; the server information is fetched once iff the user changed, replacing the document on success and raising with the old one kept on failure; the app identity never changes |
| NextcloudApp.LogThreshold | nc_py_api/nextcloud.py:153 | the threshold is the capability's `loglevel`, 0 when absent; a non-dictionary capability or non-number level raises |
| NextcloudApp.Log | nc_py_api/nextcloud.py:145-157 | nothing is sent when the ecosystem capability is missing or the level is below the threshold; otherwise exactly `{level, message}` is posted once to `<ae_url>/log` and the call ends as that request does |
| NextcloudApp.LogLevelMonotone | nc_py_api/nextcloud.py:153-154 | the level gate is a threshold: a message posted at some level is posted at every higher level, and one held back is held back at every lower level |
| NextcloudApp.ListContainsIff | nc_py_api/nextcloud.py:170 | Python's `in` on a list holds iff some element compares equal to the scope |
| NextcloudApp.ScopeIn | nc_py_api/nextcloud.py:170 | Python's `in` on the `scopes` value: on a list, true iff some element equals the scope; on a dictionary always false, as its keys are strings; any other shape raises |
| NextcloudApp.ScopeAllowed | nc_py_api/nextcloud.py:163-170 | false when the ecosystem capability is missing; otherwise true iff the scope is in its `scopes` list; a dictionary never holds it; other shapes raise |
| NextcloudApp.Theme | nc_py_api/nextcloud.py:86-89 | the theme is absent iff "theming" is not a key of the document, and otherwise is built from that entry |
| NextcloudApp.ThemeAfterAssignUser | nc_py_api/nextcloud.py:86-89 | after a user change with a successful refresh the theme reads the fetched document's `theming` entry; with the same user or a failed refresh it is unchanged |
| NextcloudApp.RequestSignCheck | nc_py_api/nextcloud.py:193-205 | false iff the signature check raises ValueError, true iff it returns; a ValueError never propagates |
| NextcloudApp.RequestSignCheckFailsClosed | nc_py_api/nextcloud.py:200-205 | every ValueError, whatever its message, gives the same `false`; `true` arises only from a check that returned normally; a ValueError never escapes |

## Left out

- Timestamp conversion: `last_modified` keeps the raw `mtime` integer. The UTC `datetime` conversion is library date handling. `utcfromtimestamp` raises for an `mtime` outside the platform's range, so the real `to_fs_node` can fail there. The model has no error path for this: `ToFsNode` always returns a node.
- Permission flag values: `FilePermissions` lives in a module outside this model. The model uses READ=1, UPDATE=2, CREATE=4, DELETE=8 and SHARE=16, which are Nextcloud's WebDAV values. Two members depend on these exact values. `FlagsOf`'s contract names the bit of each flag, and `DefaultPermissionsGrantAll` states that 31 sets all five. `DefaultPermissionsLowBits` shows 31 grants any five distinct bits below 32. The other proofs hold for any choice of distinct single-bit values.
- `os.path` is taken to be `posixpath` (a POSIX host). On Windows `os.path` is `ntpath`, whose backslash separator and drive letters would change `full_path`.
- `UiFileActionHandlerInfo` is not modelled. It is a plain record wrapping the file information, with no logic of its own.
- PyStr.Lower: `lower()` is modelled on ASCII letters only. For comparisons with "dir" and "true" this is exact. The only non-ASCII character that lower-cases to plain ASCII is KELVIN SIGN, to 'k', which neither word contains.
- NextcloudApp.Theme: returns the raw `theming` entry. `get_parsed_theme` is outside this model.
- Capabilities.Missing: covers only top-level names. The `check_capabilities` implementation is outside this model, and the core only asks for the top-level name `app_ecosystem_v2`. Dotted and nested lookups are not modelled.
- Capabilities.Require: modelled from its documented behaviour. `require_capabilities` and the text of its exception are outside this model.
- The session is not modelled: request dispatch, `check_error`, exception formatting and HTTP status mapping. An OCS reply is an input that is already classified as data, "not found" or another failure status.
- The signature algorithm is not modelled. `sign_check` is an opaque parameter. The `print(e)` in `request_sign_check` is console output and is left out.
- Endpoint wrappers and pass-through accessors are not modelled: `_init_api`, `users_list`, `app_cfg`, `response_headers`, `srv_version` and the `capabilities` getter. They only forward to the session.
- The model gives `register`'s keyword options fixed types. An explicit `None` or a value of another type is not represented, and neither are keyword arguments other than the five options it reads.
- `LogLvl` and `ApiScope` are integer enumerations outside this model. They are modelled as plain integers.
- JSON floating-point numbers are not represented.

=== FILE: capabilities.dfy ===
/** The capability document as a map from feature-area name to a JSON value,
    and the presence checks the core performs on it. */
module Capabilities {
  import opened Results
  import opened Json
  import opened Ocs

  type CapabilityMap = map<string, Json>

  const APP_ECOSYSTEM := "app_ecosystem_v2"

  /** `check_capabilities`: the requested names that are not feature areas of
      the document, in request order. */
  function Missing(names: seq<string>, caps: CapabilityMap): (r: seq<string>)
    ensures forall n :: n in r <==> n in names && n !in caps
    ensures |r| <= |names|
    ensures names == [] ==> r == []
  {
    if names == [] then []
    else if names[0] in caps then Missing(names[1..], caps)
    else [names[0]] + Missing(names[1..], caps)
  }

  /** `require_capabilities`: raises one error naming every missing feature
      area when at least one is missing, and does nothing otherwise. */
  function Require(names: seq<string>, caps: CapabilityMap): (r: Result<(), Error>)
    ensures r.Success? <==> forall n :: n in names ==> n in caps
    ensures r.Failure? ==> r.error.MissingCapabilities?
    ensures r.Failure? ==> forall n :: n in r.error.names <==> n in names && n !in caps
  {
    var missing := Missing(names, caps);
    if missing == [] then Success(())
    else
      assert missing[0] in names && missing[0] !in caps;
      Failure(MissingCapabilities(missing))
  }

  /** The core only ever asks about the one application-ecosystem feature
      area: it is missing exactly when it is not a key of the document. */
  lemma EcosystemCheck(caps: CapabilityMap)
    ensures Missing([APP_ECOSYSTEM], caps) == [] <==> APP_ECOSYSTEM in caps
    ensures APP_ECOSYSTEM !in caps ==> Missing([APP_ECOSYSTEM], caps) == [APP_ECOSYSTEM]
  {
    assert APP_ECOSYSTEM in [APP_ECOSYSTEM];
  }
}

=== FILE: files_actions.dfy ===
/** The Files-app drop-down menu API for external applications: the file
    information the platform sends with a menu action, its conversion to a
    filesystem node, and menu-entry registration and removal. */
module FilesActions {
  import opened Results
  import opened Json
  import opened PyStr
  import opened Ocs
  import opened Capabilities

  const ENDPOINT_SUFFIX := "files/actions/menu"

  /* Bit masks of the platform's permission flags (each a single bit). */
  const PERMISSION_READ: int := 1
  const PERMISSION_UPDATE: int := 2
  const PERMISSION_CREATE: int := 4
  const PERMISSION_DELETE: int := 8
  const PERMISSION_SHARE: int := 16

  /** Python's `x & mask` is truthy, for a single-bit `mask`: Python's `&` acts
      on an infinite two's-complement representation, so the tested bit is
      `floor(x / mask) mod 2`, and Dafny's division by a positive divisor floors. */
  predicate HasFlag(x: int, mask: int)
    requires mask > 0
  {
    (x / mask) % 2 == 1
  }

  /** What the platform sends about the file a menu action was run on. */
  datatype UiActionFileInfo = UiActionFileInfo(
    fileId: int,
    name: string,
    directory: string,
    etag: string,
    mime: string,
    fileType: string,
    size: int,
    favorite: string,
    permissions: int,
    mtime: int,
    userId: string,
    shareOwner: Option<string>,
    shareOwnerId: Option<string>)

  /** The filesystem node built from it; `lastModified` keeps the raw timestamp. */
  datatype FsNode = FsNode(
    fullPath: string,
    etag: string,
    size: int,
    contentLength: int,
    permissions: string,
    favorite: bool,
    fileId: int,
    fileid: int,
    lastModified: int)

  predicate IsDirectory(info: UiActionFileInfo) {
    Lower(info.fileType) == "dir"
  }

  /** A node is a directory exactly when its type spells "dir" in any letter case. */
  lemma IsDirectoryIff(info: UiActionFileInfo)
    ensures IsDirectory(info) <==> SpellsIgnoringCase(info.fileType, "dir")
  {
    LowerEqualsIff(info.fileType, "dir");
  }

  // ---------------------------------------------------------------------------
  // Paths

  /** The path relative to the user's home: `directory` joined with `name`,
      trailing slashes removed, then exactly one slash added for a directory. */
  function UserPath(info: UiActionFileInfo): (r: string)
    ensures IsDirectory(info) ==> EndsWithSlash(r) && !EndsWithSlash(r[..|r| - 1])
    ensures !IsDirectory(info) ==> !EndsWithSlash(r)
    ensures var stem := if IsDirectory(info) then r[..|r| - 1] else r;
            var joined := Join(info.directory, info.name);
            stem <= joined && forall i :: |stem| <= i < |joined| ==> joined[i] == '/'
  {
    var stem := RStripSlash(Join(info.directory, info.name));
    if IsDirectory(info) then
      assert (stem + "/")[..|stem|] == stem;
      stem + "/"
    else stem
  }

  /** For a plain `name` (non-empty, no slash) the user path is the directory,
      one separator if needed, the name, and a trailing slash for a directory. */
  lemma UserPathOfPlainName(info: UiActionFileInfo)
    requires info.name != [] && '/' !in info.name
    ensures UserPath(info) ==
            info.directory + JoinSeparator(info.directory) + info.name
            + (if IsDirectory(info) then "/" else "")
  {
    var joined := Join(info.directory, info.name);
    assert joined[|joined| - 1] == info.name[|info.name| - 1];
    assert RStripSlash(joined) == joined;
  }

  /** The root every full path of `userId` starts with: `files/<userId>`
      followed by a slash unless it already ends in one. */
  function UserRoot(userId: string): string {
    var home := "files/" + userId;
    if EndsWithSlash(home) then home else home + "/"
  }

  /** `files/<userId>` joined with the user path stripped of its leading slashes. */
  function FullPath(info: UiActionFileInfo): (r: string)
    ensures r == UserRoot(info.userId) + LStripSlash(UserPath(info))
  {
    Join("files/" + info.userId, LStripSlash(UserPath(info)))
  }

  /** For a user id that is non-empty and does not end in a slash, the full path
      is `files/<userId>/` followed by the user path without its leading slashes. */
  lemma FullPathUnderUserHome(info: UiActionFileInfo)
    requires info.userId != [] && !EndsWithSlash(info.userId)
    ensures FullPath(info) == "files/" + info.userId + "/" + LStripSlash(UserPath(info))
  {
    var home := "files/" + info.userId;
    assert home[|home| - 1] == info.userId[|info.userId| - 1];
  }

  /** The full path ends in a slash exactly for directories, and for a file
      whose user path came out empty. */
  lemma FullPathTrailingSlash(info: UiActionFileInfo)
    ensures EndsWithSlash(FullPath(info)) <==> IsDirectory(info) || UserPath(info) == []
  {
    var up := UserPath(info);
    var root := UserRoot(info.userId);
    assert EndsWithSlash(root);
    SlashAfterRoot(root, up);
  }

  // ---------------------------------------------------------------------------
  // Permission string

  /** The facts the permission letters are derived from. */
  datatype PermissionFlags = PermissionFlags(
    shared: bool, share: bool, read: bool, delete: bool, update: bool, create: bool)

  function Letters(present: bool, token: string): string {
    if present then token else ""
  }

  function UpdateToken(isDir: bool): string {
    if isDir then "NV" else "NVW"
  }

  /** The permission letters in their fixed order: S, R, G, D, then NV for a
      directory or NVW for a file, then CK for a directory only. */
  function PermissionLetters(f: PermissionFlags, isDir: bool): string {
    Letters(f.shared, "S") + (Letters(f.share, "R") + (Letters(f.read, "G") + (Letters(f.delete, "D")
    + (Letters(f.update, UpdateToken(isDir)) + Letters(isDir && f.create, "CK")))))
  }

  /** The letter string starts with S exactly for a shared node, holds W
      exactly for an updatable file, K exactly for a directory allowing creation,
      and is empty exactly when no flag it can show is set. */
  lemma PermissionLettersShape(f: PermissionFlags, isDir: bool)
    ensures var r := PermissionLetters(f, isDir);
            && ((|r| > 0 && r[0] == 'S') <==> f.shared)
            && ('W' in r <==> !isDir && f.update)
            && ('K' in r <==> isDir && f.create)
            && (r == [] <==> !f.shared && !f.share && !f.read && !f.delete && !f.update && !(isDir && f.create))
            && |r| <= 10
  {
  }

  /** The flags a permission string can show: CREATE is never shown for a file. */
  function Visible(f: PermissionFlags, isDir: bool): PermissionFlags {
    f.(create := isDir && f.create)
  }

  /** The letter groups in their order: S, R, G, D, the update group, and CK
      for a directory only; built in pairs so that the spelling unfolds in steps. */
  function Tokens(isDir: bool): seq<string> {
    ["S", "R"] + (["G", "D"] + LastTokens(isDir))
  }

  function LastTokens(isDir: bool): seq<string> {
    [UpdateToken(isDir)] + (if isDir then ["CK"] else [])
  }

  /** The flag each group shows, in the same order. */
  function FlagSeq(f: PermissionFlags, isDir: bool): (r: seq<bool>)
    ensures |r| == |Tokens(isDir)|
  {
    [f.shared, f.share] + ([f.read, f.delete] + LastFlags(f, isDir))
  }

  function LastFlags(f: PermissionFlags, isDir: bool): seq<bool> {
    [f.update] + (if isDir then [f.create] else [])
  }

  function FlagsFromSeq(bs: seq<bool>, isDir: bool): PermissionFlags
    requires |bs| == |Tokens(isDir)|
  {
    PermissionFlags(bs[0], bs[1], bs[2], bs[3], bs[4], if isDir then bs[5] else false)
  }

  /** Every letter group is non-empty and no two start with the same letter. */
  predicate Unambiguous(tokens: seq<string>) {
    && (forall i :: 0 <= i < |tokens| ==> tokens[i] != [])
    && (forall i, j :: 0 <= i < j < |tokens| ==> tokens[i][0] != tokens[j][0])
  }

  /** The groups whose flag is set, concatenated in order. */
  function Spell(present: seq<bool>, tokens: seq<string>): string
    requires |present| == |tokens|
  {
    if tokens == [] then ""
    else Letters(present[0], tokens[0]) + Spell(present[1..], tokens[1..])
  }

  /** Consumes `token` when `s` starts with it. */
  function Eat(s: string, token: string): (bool, string) {
    if token <= s then (true, s[|token|..]) else (false, s)
  }

  /** Reads the groups in order, each at most once, and fails on anything left over. */
  function Read(s: string, tokens: seq<string>): (r: Option<seq<bool>>)
    ensures r.Some? ==> |r.value| == |tokens|
  {
    if tokens == [] then (if s == [] then Some([]) else None)
    else
      var (b, rest) := Eat(s, tokens[0]);
      match Read(rest, tokens[1..])
      case None => None
      case Some(bs) => Some([b] + bs)
  }

  /** Reads a permission string back, accepting exactly the letter strings
      written in the fixed order. */
  function ParsePermissionLetters(s: string, isDir: bool): Option<PermissionFlags> {
    match Read(s, Tokens(isDir))
    case None => None
    case Some(bs) => Some(FlagsFromSeq(bs, isDir))
  }

  lemma EatLetters(present: bool, token: string, rest: string)
    requires token != [] && (rest == [] || rest[0] != token[0])
    ensures Eat(Letters(present, token) + rest, token) == (present, rest)
  {
    if present {
      assert token <= token + rest;
      assert (token + rest)[|token|..] == rest;
    } else {
      assert Letters(present, token) + rest == rest;
    }
  }

  lemma EatSplits(s: string, token: string)
    ensures s == Letters(Eat(s, token).0, token) + Eat(s, token).1
  {
    if token <= s {
      assert s == token + s[|token|..];
    }
  }

  /** A spelled string is empty or starts with the first letter of one of its groups. */
  lemma {:induction false} SpellStart(present: seq<bool>, tokens: seq<string>)
    requires |present| == |tokens| && Unambiguous(tokens)
    ensures var s := Spell(present, tokens);
            s == [] || exists k :: 0 <= k < |tokens| && s[0] == tokens[k][0]
  {
    if tokens != [] {
      var rest := Spell(present[1..], tokens[1..]);
      if !present[0] {
        SpellStart(present[1..], tokens[1..]);
        if rest != [] {
          var k :| 0 <= k < |tokens[1..]| && rest[0] == tokens[1..][k][0];
          assert Spell(present, tokens)[0] == tokens[k + 1][0];
        }
      } else {
        assert Spell(present, tokens)[0] == tokens[0][0];
      }
    }
  }

  /** Spelling and then reading gives back the same flags. */
  lemma {:induction false} ReadSpell(present: seq<bool>, tokens: seq<string>)
    requires |present| == |tokens| && Unambiguous(tokens)
    ensures Read(Spell(present, tokens), tokens) == Some(present)
  {
    if tokens != [] {
      var rest := Spell(present[1..], tokens[1..]);
      SpellStart(present[1..], tokens[1..]);
      if rest != [] {
        var k :| 0 <= k < |tokens[1..]| && rest[0] == tokens[1..][k][0];
        assert tokens[k + 1][0] != tokens[0][0];
      }
      EatLetters(present[0], tokens[0], rest);
      ReadSpell(present[1..], tokens[1..]);
      assert [present[0]] + present[1..] == present;
    }
  }

  /** Reading succeeds only on a string that spells the flags read. */
  lemma {:induction false} SpellRead(s: string, tokens: seq<string>)
    requires Read(s, tokens).Some?
    ensures Spell(Read(s, tokens).value, tokens) == s
  {
    if tokens != [] {
      var (b, rest) := Eat(s, tokens[0]);
      EatSplits(s, tokens[0]);
      SpellRead(rest, tokens[1..]);
      var bs := Read(s, tokens).value;
      assert bs[1..] == Read(rest, tokens[1..]).value;
    }
  }

  /** Spelling a leading group separately from the rest. */
  lemma SpellCons(b: bool, token: string, present: seq<bool>, tokens: seq<string>)
    requires |present| == |tokens|
    ensures Spell([b] + present, [token] + tokens) == Letters(b, token) + Spell(present, tokens)
  {
    assert ([b] + present)[1..] == present;
    assert ([token] + tokens)[1..] == tokens;
  }

  /** Spelling the update group and, for a directory, the create group. */
  lemma SpellUpdateCreate(f: PermissionFlags, isDir: bool, p4: seq<bool>, t4: seq<string>)
    requires p4 == [f.update] + (if isDir then [f.create] else [])
    requires t4 == [UpdateToken(isDir)] + (if isDir then ["CK"] else [])
    ensures Spell(p4, t4) == Letters(f.update, UpdateToken(isDir)) + Letters(isDir && f.create, "CK")
  {
    var p5: seq<bool> := if isDir then [f.create] else [];
    var t5: seq<string> := if isDir then ["CK"] else [];
    if isDir {
      SpellCons(f.create, "CK", [], []);
    }
    SpellCons(f.update, UpdateToken(isDir), p5, t5);
  }

  /** Spelling two leading groups separately from the rest. */
  lemma SpellConsTwo(b1: bool, token1: string, b2: bool, token2: string, present: seq<bool>, tokens: seq<string>)
    requires |present| == |tokens|
    ensures Spell([b1, b2] + present, [token1, token2] + tokens)
         == Letters(b1, token1) + (Letters(b2, token2) + Spell(present, tokens))
  {
    SpellCons(b2, token2, present, tokens);
    SpellCons(b1, token1, [b2] + present, [token2] + tokens);
    assert [b1] + ([b2] + present) == [b1, b2] + present;
    assert [token1] + ([token2] + tokens) == [token1, token2] + tokens;
  }

  /** The permission letters are the spelling of the flag sequence. */
  lemma PermissionLettersSpell(f: PermissionFlags, isDir: bool)
    ensures PermissionLetters(f, isDir) == Spell(FlagSeq(f, isDir), Tokens(isDir))
  {
    var p4, t4 := LastFlags(f, isDir), LastTokens(isDir);
    SpellUpdateCreate(f, isDir, p4, t4);
    SpellConsTwo(f.read, "G", f.delete, "D", p4, t4);
    SpellConsTwo(f.shared, "S", f.share, "R", [f.read, f.delete] + p4, ["G", "D"] + t4);
  }

  lemma TokensUnambiguous(isDir: bool)
    ensures Unambiguous(Tokens(isDir))
  {
  }

  /** Writing the letters and reading them back gives the visible flags. */
  lemma PermissionLettersRoundTrip(f: PermissionFlags, isDir: bool)
    ensures ParsePermissionLetters(PermissionLetters(f, isDir), isDir) == Some(Visible(f, isDir))
  {
    TokensUnambiguous(isDir);
    PermissionLettersSpell(f, isDir);
    ReadSpell(FlagSeq(f, isDir), Tokens(isDir));
  }

  /** Every string the reader accepts is the letter string of the flags it reads. */
  lemma ParsePermissionLettersSound(s: string, isDir: bool)
    requires ParsePermissionLetters(s, isDir).Some?
    ensures PermissionLetters(ParsePermissionLetters(s, isDir).value, isDir) == s
  {
    var bs := Read(s, Tokens(isDir)).value;
    var f := FlagsFromSeq(bs, isDir);
    SpellRead(s, Tokens(isDir));
    assert FlagSeq(f, isDir) == bs;
    PermissionLettersSpell(f, isDir);
  }

  /** The flags `to_fs_node` reads off the record: a non-empty share owner id,
      and each permission bit of the mask. */
  function FlagsOf(info: UiActionFileInfo): (f: PermissionFlags)
    ensures f.shared <==> info.shareOwnerId.Some? && |info.shareOwnerId.value| > 0
    ensures f.read <==> HasFlag(info.permissions, Pow2(0))
    ensures f.update <==> HasFlag(info.permissions, Pow2(1))
    ensures f.create <==> HasFlag(info.permissions, Pow2(2))
    ensures f.delete <==> HasFlag(info.permissions, Pow2(3))
    ensures f.share <==> HasFlag(info.permissions, Pow2(4))
  {
    assert Pow2(1) == 2 && Pow2(2) == 4 && Pow2(3) == 8 && Pow2(4) == 16;
    PermissionFlags(
      shared := info.shareOwnerId.Some? && info.shareOwnerId.value != "",
      share := HasFlag(info.permissions, PERMISSION_SHARE),
      read := HasFlag(info.permissions, PERMISSION_READ),
      delete := HasFlag(info.permissions, PERMISSION_DELETE),
      update := HasFlag(info.permissions, PERMISSION_UPDATE),
      create := HasFlag(info.permissions, PERMISSION_CREATE))
  }

  /** The `permissions` string of the node: it reads back to exactly the flags
      of the record that a node of its kind can show. */
  function PermissionString(info: UiActionFileInfo): (r: string)
    ensures ParsePermissionLetters(r, IsDirectory(info))
            == Some(Visible(FlagsOf(info), IsDirectory(info)))
  {
    PermissionLettersRoundTrip(FlagsOf(info), IsDirectory(info));
    PermissionLetters(FlagsOf(info), IsDirectory(info))
  }

  /** The permission string starts with "S" exactly for a non-empty share owner
      id, and has W only for files and CK only for directories. */
  lemma PermissionStringMeaning(info: UiActionFileInfo)
    ensures var s := PermissionString(info);
            && ((|s| > 0 && s[0] == 'S') <==> info.shareOwnerId.Some? && info.shareOwnerId.value != "")
            && ('W' in s <==> !IsDirectory(info) && HasFlag(info.permissions, PERMISSION_UPDATE))
            && ('K' in s <==> IsDirectory(info) && HasFlag(info.permissions, PERMISSION_CREATE))
  {
    PermissionLettersShape(FlagsOf(info), IsDirectory(info));
  }

  /** A zero mask without a share owner gives the empty permission string. */
  lemma EmptyMaskNoOwner(info: UiActionFileInfo)
    requires info.permissions == 0
    requires info.shareOwnerId.None? || info.shareOwnerId == Some("")
    ensures PermissionString(info) == ""
  {
  }

  // ---------------------------------------------------------------------------
  // Conversion

  /** The favorite marker is set exactly when it spells "true" in any letter case. */
  lemma FavoriteIff(favorite: string)
    ensures Lower(favorite) == "true" <==> SpellsIgnoringCase(favorite, "true")
  {
    LowerEqualsIff(favorite, "true");
  }

  /** `to_fs_node`: the node for the file or directory the action was run on. */
  function ToFsNode(info: UiActionFileInfo): (n: FsNode)
    ensures n.fullPath == FullPath(info)
    ensures n.permissions == PermissionLetters(FlagsOf(info), IsDirectory(info))
    ensures IsDirectory(info) ==> n.contentLength == 0
    ensures !IsDirectory(info) ==> n.contentLength == info.size
    ensures n.favorite <==> SpellsIgnoringCase(info.favorite, "true")
    ensures n.fileId == info.fileId && n.fileid == info.fileId
    ensures n.etag == info.etag && n.size == info.size && n.lastModified == info.mtime
  {
    FavoriteIff(info.favorite);
    var isDir := IsDirectory(info);
    FsNode(
      FullPath(info),
      etag := info.etag,
      size := info.size,
      contentLength := if isDir then 0 else info.size,
      permissions := PermissionString(info),
      favorite := Lower(info.favorite) == "true",
      fileId := info.fileId,
      fileid := info.fileId,
      lastModified := info.mtime)
  }

  // ---------------------------------------------------------------------------
  // Menu-entry registration

  const DEFAULT_MIME := "file"
  const DEFAULT_PERMISSIONS: int := 31
  const DEFAULT_ORDER: int := 0
  const DEFAULT_ICON := ""
  const DEFAULT_ICON_CLASS := "icon-app-ecosystem-v2"

  /** The optional keyword arguments of `register`; `None` is an absent key. */
  datatype MenuOptions = MenuOptions(
    mime: Option<string>,
    permissions: Option<int>,
    order: Option<int>,
    icon: Option<string>,
    iconClass: Option<string>)

  /** The `fileActionMenuParams` record `register` sends. */
  datatype MenuParams = MenuParams(
    name: string,
    displayName: string,
    mime: string,
    permissions: int,
    order: int,
    icon: string,
    iconClass: string,
    actionHandler: string)

  /** `kwargs.get(key, default)`. */
  function GetOr<T>(o: Option<T>, default: T): T {
    match o
    case Some(v) => v
    case None => default
  }

  /** The parameters of a new menu entry: every option left out takes its
      default, every option given and the callback URL pass through unchanged. */
  function MenuParamsOf(name: string, displayName: string, callbackUrl: string, opts: MenuOptions): (p: MenuParams)
    ensures p.name == name && p.displayName == displayName && p.actionHandler == callbackUrl
    ensures opts.mime.None? ==> p.mime == DEFAULT_MIME
    ensures opts.permissions.None? ==> p.permissions == DEFAULT_PERMISSIONS
    ensures opts.order.None? ==> p.order == DEFAULT_ORDER
    ensures opts.icon.None? ==> p.icon == DEFAULT_ICON
    ensures opts.iconClass.None? ==> p.iconClass == DEFAULT_ICON_CLASS
    ensures opts.mime.Some? ==> p.mime == opts.mime.value
    ensures opts.permissions.Some? ==> p.permissions == opts.permissions.value
    ensures opts.order.Some? ==> p.order == opts.order.value
    ensures opts.icon.Some? ==> p.icon == opts.icon.value
    ensures opts.iconClass.Some? ==> p.iconClass == opts.iconClass.value
  {
    MenuParams(
      name, displayName,
      GetOr(opts.mime, DEFAULT_MIME),
      GetOr(opts.permissions, DEFAULT_PERMISSIONS),
      GetOr(opts.order, DEFAULT_ORDER),
      GetOr(opts.icon, DEFAULT_ICON),
      GetOr(opts.iconClass, DEFAULT_ICON_CLASS),
      callbackUrl)
  }

  /** Every option written out. */
  function Explicit(p: MenuParams): MenuOptions {
    MenuOptions(Some(p.mime), Some(p.permissions), Some(p.order), Some(p.icon), Some(p.iconClass))
  }

  /** Defaulting is settled in one step: passing the resolved options again,
      all explicitly, changes nothing; and passing the defaults explicitly is
      the same as passing nothing. */
  lemma MenuDefaultsSettle(name: string, displayName: string, callbackUrl: string, opts: MenuOptions)
    ensures var p := MenuParamsOf(name, displayName, callbackUrl, opts);
            MenuParamsOf(name, displayName, callbackUrl, Explicit(p)) == p
    ensures MenuParamsOf(name, displayName, callbackUrl, MenuOptions(None, None, None, None, None))
         == MenuParamsOf(name, displayName, callbackUrl,
              MenuOptions(Some(DEFAULT_MIME), Some(DEFAULT_PERMISSIONS), Some(DEFAULT_ORDER),
                          Some(DEFAULT_ICON), Some(DEFAULT_ICON_CLASS)))
  {
  }

  function Pow2(k: nat): (r: int)
    ensures r > 0
  {
    if k == 0 then 1 else 2 * Pow2(k - 1)
  }

  /** The default mask 31 has every one of the five lowest bits set, so it
      grants any five distinct single-bit flags below 32. */
  lemma DefaultPermissionsLowBits(k: nat)
    requires k < 5
    ensures HasFlag(DEFAULT_PERMISSIONS, Pow2(k))
  {
    assert Pow2(1) == 2 && Pow2(2) == 4 && Pow2(3) == 8 && Pow2(4) == 16;
  }

  /** The default permission mask 31 grants all five permission flags. */
  lemma DefaultPermissionsGrantAll()
    ensures HasFlag(DEFAULT_PERMISSIONS, PERMISSION_READ) && HasFlag(DEFAULT_PERMISSIONS, PERMISSION_UPDATE)
    ensures HasFlag(DEFAULT_PERMISSIONS, PERMISSION_CREATE) && HasFlag(DEFAULT_PERMISSIONS, PERMISSION_DELETE)
    ensures HasFlag(DEFAULT_PERMISSIONS, PERMISSION_SHARE)
  {
    assert PERMISSION_READ == Pow2(0) && PERMISSION_UPDATE == Pow2(1) && PERMISSION_CREATE == Pow2(2);
    assert PERMISSION_DELETE == Pow2(3) && PERMISSION_SHARE == Pow2(4);
    DefaultPermissionsLowBits(0);
    DefaultPermissionsLowBits(1);
    DefaultPermissionsLowBits(2);
    DefaultPermissionsLowBits(3);
    DefaultPermissionsLowBits(4);
  }

  /** The JSON body `register` posts. */
  function MenuParamsJson(p: MenuParams): Json {
    JObject(map[
      "fileActionMenuParams" := JObject(map[
        "name" := JString(p.name),
        "display_name" := JString(p.displayName),
        "mime" := JString(p.mime),
        "permissions" := JInt(p.permissions),
        "order" := JInt(p.order),
        "icon" := JString(p.icon),
        "icon_class" := JString(p.iconClass),
        "action_handler" := JString(p.actionHandler)])])
  }

  function StringField(m: map<string, Json>, key: string): Option<string> {
    if key in m && m[key].JString? then Some(m[key].s) else None
  }

  function IntField(m: map<string, Json>, key: string): Option<int> {
    if key in m && m[key].JInt? then Some(m[key].i) else None
  }

  /** Reads a `register` body back, as the receiving end would. */
  function ParseMenuParamsJson(j: Json): Option<MenuParams> {
    if !j.JObject? || "fileActionMenuParams" !in j.fields then None
    else
      var inner := j.fields["fileActionMenuParams"];
      if !inner.JObject? then None
      else
        var m := inner.fields;
        var name := StringField(m, "name");
        var displayName := StringField(m, "display_name");
        var mime := StringField(m, "mime");
        var permissions := IntField(m, "permissions");
        var order := IntField(m, "order");
        var icon := StringField(m, "icon");
        var iconClass := StringField(m, "icon_class");
        var handler := StringField(m, "action_handler");
        if name.Some? && displayName.Some? && mime.Some? && permissions.Some? && order.Some?
           && icon.Some? && iconClass.Some? && handler.Some?
        then Some(MenuParams(name.value, displayName.value, mime.value, permissions.value, order.value,
                             icon.value, iconClass.value, handler.value))
        else None
  }

  /** The posted body carries every parameter, each under its own key. */
  lemma MenuParamsJsonRoundTrip(p: MenuParams)
    ensures ParseMenuParamsJson(MenuParamsJson(p)) == Some(p)
  {
  }

  function MenuEndpoint(aeUrl: string): string {
    aeUrl + "/" + ENDPOINT_SUFFIX
  }

  /** `register`: fails without sending anything when the application
      ecosystem is missing; otherwise posts the defaulted parameters once to
      the menu endpoint and ends as that request ends. */
  function Register(caps: CapabilityMap, aeUrl: string, name: string, displayName: string,
                    callbackUrl: string, opts: MenuOptions, reply: OcsReply): (r: Run<()>)
    ensures APP_ECOSYSTEM !in caps ==>
              r.sent == [] && r.result == Failure(MissingCapabilities([APP_ECOSYSTEM]))
    ensures APP_ECOSYSTEM in caps ==>
              && r.sent == [OcsRequest("POST", MenuEndpoint(aeUrl),
                                       MenuParamsJson(MenuParamsOf(name, displayName, callbackUrl, opts)))]
              && r.result == Settle(reply)
  {
    EcosystemCheck(caps);
    match Require([APP_ECOSYSTEM], caps)
    case Failure(e) => Run([], Failure(e))
    case Success(_) =>
      var body := MenuParamsJson(MenuParamsOf(name, displayName, callbackUrl, opts));
      Run([OcsRequest("POST", MenuEndpoint(aeUrl), body)], Settle(reply))
  }

  /** The JSON body `unregister` sends. */
  function UnregisterJson(name: string): Json {
    JObject(map["fileActionMenuName" := JString(name)])
  }

  /** `unregister` swallows a "not found" reply unless told otherwise. */
  const DEFAULT_NOT_FAIL := true

  /** `unregister`: fails without sending anything when the application
      ecosystem is missing; otherwise sends one delete request, and a "not
      found" reply is swallowed when `notFail` holds and raised otherwise. */
  function Unregister(caps: CapabilityMap, aeUrl: string, name: string, notFail: bool,
                      reply: OcsReply): (r: Run<()>)
    ensures APP_ECOSYSTEM !in caps ==>
              r.sent == [] && r.result == Failure(MissingCapabilities([APP_ECOSYSTEM]))
    ensures APP_ECOSYSTEM in caps ==>
              && r.sent == [OcsRequest("DELETE", MenuEndpoint(aeUrl), UnregisterJson(name))]
              && (r.result.Success? <==> reply.Replied? || (reply.NotFoundReply? && notFail))
              && (reply.NotFoundReply? && !notFail ==> r.result == Failure(NotFound))
              && (reply.FailedReply? ==> r.result == Failure(RequestFailed(reply.status)))
  {
    EcosystemCheck(caps);
    match Require([APP_ECOSYSTEM], caps)
    case Failure(e) => Run([], Failure(e))
    case Success(_) =>
      var sent := [OcsRequest("DELETE", MenuEndpoint(aeUrl), UnregisterJson(name))];
      match reply
      case NotFoundReply => Run(sent, if notFail then Success(()) else Failure(NotFound))
      case _ => Run(sent, Settle(reply))
  }

  /** `notFail` only decides what a "not found" reply does: for every other
      reply both settings behave the same, and with `notFail` set the call
      never raises "not found". */
  lemma UnregisterNotFailPolicy(caps: CapabilityMap, aeUrl: string, name: string, reply: OcsReply)
    ensures !reply.NotFoundReply? ==>
              Unregister(caps, aeUrl, name, true, reply) == Unregister(caps, aeUrl, name, false, reply)
    ensures Unregister(caps, aeUrl, name, true, reply).result != Failure(NotFound)
  {
  }

  /** Called with its default, `unregister` succeeds on a "not found" reply
      whenever the application ecosystem is present: removing a menu entry
      that is not registered is not an error. */
  lemma UnregisterDefaultSwallowsNotFound(caps: CapabilityMap, aeUrl: string, name: string)
    ensures APP_ECOSYSTEM in caps ==>
              Unregister(caps, aeUrl, name, DEFAULT_NOT_FAIL, NotFoundReply).result == Success(())
    ensures APP_ECOSYSTEM !in caps ==>
              Unregister(caps, aeUrl, name, DEFAULT_NOT_FAIL, NotFoundReply).result.Failure?
  {
  }
}

=== FILE: json.dfy ===
/** JSON-shaped values, as Python's `json` module decodes them (floats left out). */
module Json {
  import opened Results

  datatype Json =
    | JNull
    | JBool(b: bool)
    | JInt(i: int)
    | JString(s: string)
    | JArray(items: seq<Json>)
    | JObject(fields: map<string, Json>)

  /** The integer a value stands for in a Python comparison: `bool` is a
      subclass of `int`, every other JSON shape makes `<` raise TypeError. */
  function AsPyInt(j: Json): (r: Option<int>)
    ensures r.Some? <==> (j.JInt? || j.JBool?)
    ensures j.JInt? ==> r == Some(j.i)
    ensures j.JBool? ==> r == Some(if j.b then 1 else 0)
  {
    match j
    case JInt(i) => Some(i)
    case JBool(b) => Some(if b then 1 else 0)
    case _ => None
  }
}

=== FILE: nextcloud_app.dfy ===
/** The application client: its impersonation state, and the decisions it
    takes from the capability document before (or instead of) talking to the
    platform. */
module NextcloudApp {
  import opened Results
  import opened Json
  import opened Ocs
  import opened Capabilities

  /** Talk's per-user cache: the configuration hash and the last-change marker. */
  datatype TalkCache = TalkCache(configSha: string, modifiedSince: int)

  const FRESH_TALK := TalkCache("", 0)

  /** The capability document and the platform version, replaced together. */
  datatype ServerInfo = ServerInfo(capabilities: CapabilityMap, version: Json)

  /** What an application client holds: the impersonated user, Talk's cache,
      the server information, and the fixed application identity. */
  datatype AppState = AppState(
    user: string,
    talk: TalkCache,
    server: ServerInfo,
    aeUrl: string,
    appId: string,
    appVersion: string)

  /** The state after assigning `user`, and whether the assignment asked for
      one refresh of the server information. */
  datatype UserChange = UserChange(next: AppState, refresh: bool)

  /** The `user` setter without its refresh: assigning the current user is a
      no-op; assigning another one switches the user, resets Talk's cache and
      asks for exactly one refresh, leaving everything else as it was. */
  function SetUser(s: AppState, value: string): (c: UserChange)
    ensures c.next.user == value
    ensures c.refresh <==> s.user != value
    ensures s.user == value ==> c.next == s
    ensures s.user != value ==> c.next == s.(user := value, talk := FRESH_TALK)
  {
    if s.user != value then UserChange(s.(user := value, talk := FRESH_TALK), true)
    else UserChange(s, false)
  }

  /** Assigning the same user twice is the same as assigning it once, and the
      second assignment asks for no refresh. */
  lemma SetUserIdempotent(s: AppState, value: string)
    ensures var once := SetUser(s, value).next;
            SetUser(once, value) == UserChange(once, false)
  {
  }

  /** `update_server_info`: the fetched information replaces the old one as a
      whole; a failed fetch raises and leaves the old information in place. */
  function UpdateServerInfo(s: AppState, fetched: Result<ServerInfo, Error>): (r: (AppState, Result<(), Error>))
    ensures fetched.Success? ==> r.0 == s.(server := fetched.value) && r.1 == Success(())
    ensures fetched.Failure? ==> r.0 == s && r.1 == Failure(fetched.error)
  {
    match fetched
    case Success(info) => (s.(server := info), Success(()))
    case Failure(e) => (s, Failure(e))
  }

  /** One run of the `user` setter: the new state, how many times the server
      information was fetched, and how the assignment ended. */
  datatype Step = Step(state: AppState, refreshes: nat, result: Result<(), Error>)

  /** The `user` setter with its refresh, given what the fetch would return. */
  function AssignUser(s: AppState, value: string, fetched: Result<ServerInfo, Error>): (r: Step)
    ensures r.state.user == value
    ensures r.refreshes == if s.user == value then 0 else 1
    ensures s.user == value ==> r.state == s && r.result == Success(())
    ensures s.user != value ==> r.state.talk == FRESH_TALK
    ensures s.user != value && fetched.Success? ==>
              r.state.server == fetched.value && r.result == Success(())
    ensures s.user != value && fetched.Failure? ==>
              r.state.server == s.server && r.result == Failure(fetched.error)
    ensures r.state.aeUrl == s.aeUrl && r.state.appId == s.appId && r.state.appVersion == s.appVersion
  {
    var c := SetUser(s, value);
    if c.refresh then
      var (next, result) := UpdateServerInfo(c.next, fetched);
      Step(next, 1, result)
    else Step(c.next, 0, Success(()))
  }

  // ---------------------------------------------------------------------------
  // Logging

  /** The minimum level the platform accepts, from the ecosystem capability:
      its `loglevel` entry, 0 when absent; a value that is not a dictionary,
      or a level that is not an integer, raises. */
  function LogThreshold(ecosystem: Json): (r: Result<int, Error>)
    ensures ecosystem.JObject? && "loglevel" !in ecosystem.fields ==> r == Success(0)
    ensures ecosystem.JObject? && "loglevel" in ecosystem.fields ==>
              var level := AsPyInt(ecosystem.fields["loglevel"]);
              (r.Success? <==> level.Some?) && (r.Success? ==> r.value == level.value)
    ensures !ecosystem.JObject? ==> r.Failure?
  {
    match ecosystem
    case JObject(m) =>
      if "loglevel" !in m then Success(0)
      else
        (match AsPyInt(m["loglevel"])
         case Some(t) => Success(t)
         case None => Failure(ShapeError("loglevel is not a number")))
    case _ => Failure(ShapeError("app_ecosystem_v2 is not a dictionary"))
  }

  function LogBody(level: int, content: string): Json {
    JObject(map["level" := JInt(level), "message" := JString(content)])
  }

  /** `log`: nothing is sent when the ecosystem capability is missing or the
      level is below its threshold; otherwise exactly one post of the level
      and message goes to `<ae_url>/log`. */
  function Log(s: AppState, level: int, content: string, reply: OcsReply): (r: Run<()>)
    ensures APP_ECOSYSTEM !in s.server.capabilities ==> r == Run([], Success(()))
    ensures r.sent != [] <==>
              && APP_ECOSYSTEM in s.server.capabilities
              && LogThreshold(s.server.capabilities[APP_ECOSYSTEM]).Success?
              && level >= LogThreshold(s.server.capabilities[APP_ECOSYSTEM]).value
    ensures r.sent != [] ==>
              && r.sent == [OcsRequest("POST", s.aeUrl + "/log", LogBody(level, content))]
              && r.result == Settle(reply)
    ensures r.sent == [] && APP_ECOSYSTEM in s.server.capabilities ==>
              r.result == (match LogThreshold(s.server.capabilities[APP_ECOSYSTEM])
                           case Success(_) => Success(())
                           case Failure(e) => Failure(e))
  {
    var caps := s.server.capabilities;
    EcosystemCheck(caps);
    if Missing([APP_ECOSYSTEM], caps) != [] then Run([], Success(()))
    else
      match LogThreshold(caps[APP_ECOSYSTEM])
      case Failure(e) => Run([], Failure(e))
      case Success(threshold) =>
        if level < threshold then Run([], Success(()))
        else Run([OcsRequest("POST", s.aeUrl + "/log", LogBody(level, content))], Settle(reply))
  }

  /** The level gate is a threshold: a message that is posted at some level
      is posted at every higher level too, and one that is held back at some
      level is held back at every lower level. */
  lemma LogLevelMonotone(s: AppState, level: int, higher: int, content: string, reply: OcsReply)
    requires level <= higher
    ensures Log(s, level, content, reply).sent != [] ==> Log(s, higher, content, reply).sent != []
    ensures Log(s, higher, content, reply).sent == [] ==> Log(s, level, content, reply).sent == []
  {
  }

  // ---------------------------------------------------------------------------
  // Scopes and theming

  /** Python's `n in xs` on a list: some element compares equal to `n`. */
  function ListContains(xs: seq<Json>, n: int): bool {
    if xs == [] then false
    else AsPyInt(xs[0]) == Some(n) || ListContains(xs[1..], n)
  }

  lemma {:induction false} ListContainsIff(xs: seq<Json>, n: int)
    ensures ListContains(xs, n) <==> exists i :: 0 <= i < |xs| && AsPyInt(xs[i]) == Some(n)
  {
    if xs != [] {
      ListContainsIff(xs[1..], n);
      if ListContains(xs[1..], n) {
        var i :| 0 <= i < |xs[1..]| && AsPyInt(xs[1..][i]) == Some(n);
        assert AsPyInt(xs[i + 1]) == Some(n);
      }
      if exists i :: 0 <= i < |xs| && AsPyInt(xs[i]) == Some(n) {
        var i :| 0 <= i < |xs| && AsPyInt(xs[i]) == Some(n);
        if i > 0 {
          assert AsPyInt(xs[1..][i - 1]) == Some(n);
        }
      }
    }
  }

  /** `scope in value`: a list holds it when an element equals it, a
      dictionary never does (its keys are strings), anything else raises. */
  function ScopeIn(scope: int, value: Json): (r: Result<bool, Error>)
    ensures r.Failure? <==> !(value.JArray? || value.JObject?)
    ensures value.JObject? ==> r == Success(false)
    ensures value.JArray? ==>
              r.Success? && (r.value <==> exists i :: 0 <= i < |value.items| && AsPyInt(value.items[i]) == Some(scope))
  {
    match value
    case JArray(xs) =>
      ListContainsIff(xs, scope);
      Success(ListContains(xs, scope))
    case JObject(_) => Success(false)
    case _ => Failure(ShapeError("scopes is not a container"))
  }

  /** `scope_allowed`: false when the ecosystem capability is missing;
      otherwise whether the scope is in that capability's `scopes` list. */
  function ScopeAllowed(s: AppState, scope: int): (r: Result<bool, Error>)
    ensures APP_ECOSYSTEM !in s.server.capabilities ==> r == Success(false)
    ensures APP_ECOSYSTEM in s.server.capabilities ==>
              var eco := s.server.capabilities[APP_ECOSYSTEM];
              eco.JObject? && "scopes" in eco.fields && eco.fields["scopes"].JArray? ==>
                var xs := eco.fields["scopes"].items;
                r.Success? && (r.value <==> exists i :: 0 <= i < |xs| && AsPyInt(xs[i]) == Some(scope))
    ensures APP_ECOSYSTEM in s.server.capabilities ==>
              var eco := s.server.capabilities[APP_ECOSYSTEM];
              eco.JObject? && "scopes" in eco.fields && eco.fields["scopes"].JObject? ==> r == Success(false)
    ensures APP_ECOSYSTEM in s.server.capabilities ==>
              var eco := s.server.capabilities[APP_ECOSYSTEM];
              (r.Failure? <==> !eco.JObject? || "scopes" !in eco.fields
                               || !(eco.fields["scopes"].JArray? || eco.fields["scopes"].JObject?))
  {
    var caps := s.server.capabilities;
    EcosystemCheck(caps);
    if Missing([APP_ECOSYSTEM], caps) != [] then Success(false)
    else
      match caps[APP_ECOSYSTEM]
      case JObject(m) =>
        if "scopes" !in m then Failure(ShapeError("no scopes entry"))
        else
          ScopeIn(scope, m["scopes"])
      case _ => Failure(ShapeError("app_ecosystem_v2 is not a dictionary"))
  }

  /** `theme`: the theming capability handed to the theme parser, absent
      exactly when the document has no "theming" entry. */
  function Theme(s: AppState): (r: Option<Json>)
    ensures r.None? <==> "theming" !in s.server.capabilities
    ensures r.Some? ==> r.value == s.server.capabilities["theming"]
  {
    if "theming" in s.server.capabilities then Some(s.server.capabilities["theming"]) else None
  }

  /** A user change is visible in the theme: after a changed user and a
      successful fetch the theme reads the fetched document, while the same
      user or a failed fetch leaves the theme as it was. */
  lemma ThemeAfterAssignUser(s: AppState, value: string, fetched: Result<ServerInfo, Error>)
    ensures var after := AssignUser(s, value, fetched).state;
            s.user != value && fetched.Success? ==>
              (Theme(after).None? <==> "theming" !in fetched.value.capabilities)
              && (Theme(after).Some? ==> Theme(after).value == fetched.value.capabilities["theming"])
    ensures s.user == value || fetched.Failure? ==> Theme(AssignUser(s, value, fetched).state) == Theme(s)
  {
  }

  // ---------------------------------------------------------------------------
  // Inbound request verification

  /** How the session's signature check ended on a request. */
  datatype SignOutcome = Verified | RaisedValueError(message: string) | RaisedOther(message: string)

  /** `request_sign_check`: a ValueError from the signature check becomes
      `false`, a clean return becomes `true`; nothing but other exceptions
      escapes. */
  function RequestSignCheck<R>(signCheck: R -> SignOutcome, request: R): (r: Result<bool, Error>)
    ensures r == Success(true) <==> signCheck(request).Verified?
    ensures r == Success(false) <==> signCheck(request).RaisedValueError?
    ensures r.Failure? <==> signCheck(request).RaisedOther?
    ensures r.Failure? ==> r.error == Raised(signCheck(request).message)
  {
    match signCheck(request)
    case Verified => Success(true)
    case RaisedValueError(_) => Success(false)
    case RaisedOther(message) => Failure(Raised(message))
  }

  /** The verdict fails closed: every ValueError gives the same `false`,
      whatever its message and whichever check raised it, and `true` only
      comes from a check that returned normally. */
  lemma RequestSignCheckFailsClosed<R>(check1: R -> SignOutcome, request1: R,
                                       check2: R -> SignOutcome, request2: R)
    ensures check1(request1).RaisedValueError? && check2(request2).RaisedValueError? ==>
              RequestSignCheck(check1, request1) == RequestSignCheck(check2, request2) == Success(false)
    ensures RequestSignCheck(check1, request1) == Success(true) ==> check1(request1) == Verified
    ensures RequestSignCheck(check1, request1).Failure? ==> !check1(request1).RaisedValueError?
  {
  }
}

=== FILE: ocs.dfy ===
/** The session's single request primitive as the core sees it: an OCS call is
    sent, and the platform's reply (a parameter, since the network is not
    modelled) either carries decoded data or a failure status. */
module Ocs {
  import opened Results
  import opened Json

  datatype OcsRequest = OcsRequest(verb: string, path: string, body: Json)

  /** How a sent request ended: decoded data, the "not found" failure, or any
      other failure status. */
  datatype OcsReply = Replied(data: Json) | NotFoundReply | FailedReply(status: FailureStatus)

  /** A failure status other than "not found": 404 arrives as `NotFoundReply`,
      and a 2xx status is a success, never a failure. */
  type FailureStatus = s: int | s != 404 && !(200 <= s < 300) witness 500

  /** The exceptions the core raises or lets through. */
  datatype Error =
    | MissingCapabilities(names: seq<string>)  // require_capabilities
    | NotFound                                 // NextcloudExceptionNotFound
    | RequestFailed(status: int)               // any other NextcloudException
    | ShapeError(detail: string)               // TypeError/KeyError/AttributeError on a capability value
    | Raised(message: string)                  // an exception passed through untouched

  /** The requests an operation sent, in order, and how it ended. */
  datatype Run<+T> = Run(sent: seq<OcsRequest>, result: Result<T, Error>)

  /** What the caller of `ocs(...)` sees once the reply is in: the call
      returns normally or raises the matching exception. */
  function Settle(reply: OcsReply): (r: Result<(), Error>)
    ensures r.Success? <==> reply.Replied?
    ensures reply.NotFoundReply? <==> r == Failure(NotFound)
    ensures reply.FailedReply? ==> r == Failure(RequestFailed(reply.status))
  {
    match reply
    case Replied(_) => Success(())
    case NotFoundReply => Failure(NotFound)
    case FailedReply(status) => Failure(RequestFailed(status))
  }
}

=== FILE: pystr.dfy ===
/** The few pieces of Python's string and `posixpath` behaviour the core relies on. */
module PyStr {

  predicate StartsWithSlash(s: string) {
    |s| > 0 && s[0] == '/'
  }

  predicate EndsWithSlash(s: string) {
    |s| > 0 && s[|s| - 1] == '/'
  }

  /** `s.rstrip("/")`: the longest prefix of `s` that does not end in '/'. */
  function RStripSlash(s: string): (r: string)
    ensures r <= s
    ensures !EndsWithSlash(r)
    ensures forall i :: |r| <= i < |s| ==> s[i] == '/'
    decreases |s|
  {
    if EndsWithSlash(s) then RStripSlash(s[..|s| - 1]) else s
  }

  /** `s.lstrip("/")`: the longest suffix of `s` that does not start with '/'. */
  function LStripSlash(s: string): (r: string)
    ensures |r| <= |s| && r == s[|s| - |r|..]
    ensures !StartsWithSlash(r)
    ensures forall i :: 0 <= i < |s| - |r| ==> s[i] == '/'
    decreases |s|
  {
    if StartsWithSlash(s) then LStripSlash(s[1..]) else s
  }

  /** The separator `posixpath.join(a, b)` puts between `a` and a relative `b`. */
  function JoinSeparator(a: string): string {
    if a == [] || EndsWithSlash(a) then "" else "/"
  }

  /** `posixpath.join(a, b)` for two components: an absolute `b` replaces `a`,
      otherwise `b` is appended to `a` with at most one added separator. */
  function Join(a: string, b: string): (r: string)
    ensures StartsWithSlash(b) ==> r == b
    ensures !StartsWithSlash(b) ==> r == a + JoinSeparator(a) + b
  {
    if StartsWithSlash(b) then b
    else if a == [] || EndsWithSlash(a) then a + b
    else a + "/" + b
  }

  function LowerChar(c: char): char {
    if 'A' <= c <= 'Z' then (c as int - 'A' as int + 'a' as int) as char else c
  }

  function UpperChar(c: char): char {
    if 'a' <= c <= 'z' then (c as int - 'a' as int + 'A' as int) as char else c
  }

  /** `s.lower()` restricted to the ASCII letters. */
  function Lower(s: string): (r: string)
    ensures |r| == |s|
    ensures forall i :: 0 <= i < |s| && 'A' <= s[i] <= 'Z' ==> r[i] as int == s[i] as int + 32
    ensures forall i :: 0 <= i < |s| && !('A' <= s[i] <= 'Z') ==> r[i] == s[i]
  {
    seq(|s|, i requires 0 <= i < |s| => LowerChar(s[i]))
  }

  predicate IsLowerWord(w: string) {
    forall i :: 0 <= i < |w| ==> 'a' <= w[i] <= 'z'
  }

  /** `s` spells the lower-case word `w` with every letter in either case. */
  predicate SpellsIgnoringCase(s: string, w: string) {
    |s| == |w| && forall i :: 0 <= i < |s| ==> s[i] == w[i] || s[i] == UpperChar(w[i])
  }

  /** Comparing `s.lower()` with a lower-case word is a letter-by-letter,
      case-insensitive comparison, in both directions. */
  lemma {:induction false} LowerEqualsIff(s: string, w: string)
    requires IsLowerWord(w)
    ensures Lower(s) == w <==> SpellsIgnoringCase(s, w)
  {
    if Lower(s) == w {
      forall i | 0 <= i < |s|
        ensures s[i] == w[i] || s[i] == UpperChar(w[i])
      {
        assert LowerChar(s[i]) == w[i];
      }
    }
    if SpellsIgnoringCase(s, w) {
      forall i | 0 <= i < |s|
        ensures Lower(s)[i] == w[i]
      {
        assert 'a' <= w[i] <= 'z';
      }
    }
  }

  /** Appending a path stripped of its leading slashes to a root that ends in
      a slash gives a path ending in a slash exactly when the original path
      was empty or ended in one. */
  lemma SlashAfterRoot(root: string, s: string)
    requires EndsWithSlash(root)
    ensures EndsWithSlash(root + LStripSlash(s)) <==> s == [] || EndsWithSlash(s)
  {
    var t := LStripSlash(s);
    if t != [] {
      assert t[|t| - 1] == s[|s| - 1];
      assert (root + t)[|root + t| - 1] == t[|t| - 1];
    } else if s != [] {
      assert s[|s| - 1] == '/';
      assert root + t == root;
    } else {
      assert root + t == root;
    }
  }
}

=== FILE: results.dfy ===
/** Failure-carrying wrappers used throughout the model: Python's `None` and
    raised exceptions become `Option` and `Result` values. */
module Results {

  datatype Option<+T> = None | Some(value: T)

  datatype Result<+T, +E> = Success(value: T) | Failure(error: E)
}
